=== FILE: README.md ===
# Path-tracer scattering kernel and camera raster, in Dafny

This project models two small pieces of a Monte-Carlo path tracer:

- **The surface-scattering kernel** (`swan/bsdf.hpp`, module `Bsdf`). It covers the
  shading-frame helpers `CosTheta` and `AbsCosTheta`, the dielectric Fresnel reflectance
  `FresnelDielectric`, and the three BSDF variants: Lambertian `Diffuse`, perfect mirror
  `Reflect` and smooth dielectric `Refract`. Each variant has its `F`, `SampleF` and
  `IsDelta`. The class hierarchy becomes one datatype,
  `Bsdf = Diffuse(r) | Reflect(r) | Refract(r, etai, etat)`. One call of `SampleF`
  (direction, pdf out-parameter, returned weight) becomes a `Sample` record.
- **The camera's raster bookkeeping** (`zebra/camera.hpp`, module `Camera`). It covers the
  default 512×512 film, `RasterIsValid`, the row-major `RasterToIndex`, the pin-hole
  projections `WorldToRaster` and `RasterToWorld`, and `DirectionToCamera`.

Module `Numerics` supplies the stand-ins both pieces need:

- `double` is modelled as `real`.
- The three-component vector is an immutable record.
- `std::sqrt` is a function parameter `sqrt` together with the promise `IsSqrt(sqrt)`:
  for every non-negative argument it returns a non-negative number that squares to it.
- `Normalize` divides a non-zero vector by that length.

C++'s double-to-int conversion truncates toward zero. `Camera.Truncate` writes this out,
because Dafny's `Floor` rounds toward minus infinity.

The model follows the code, with one exception: the dielectric's transmitted direction
(`swan/bsdf.hpp:162`). `Bsdf.RefractSampleF` and everything built on it use the corrected
direction; the direction as written and a sampler built on it are modelled beside it and
compared under "## Findings". Two places where the code departs from the usual conventions:

- The mirror's weight divides by the **signed** cosine (`swan/bsdf.hpp:121`). The usual
  convention divides by `|cos|`. For `wo.z < 0` the weight is therefore `-r / |wo.z|`, and
  the estimator returns `-r` (`Bsdf.ReflectSampleF`).
- The dielectric treats `wo.z < 0` as *entering* (`swan/bsdf.hpp:138`). So `wo = (0, 0, 1)`
  with indices (1, 1.5) is light leaving the medium of index 1.5, not light entering the glass.

## Model

| member | source | states |
|---|---|---|
| Bsdf.CosThetaIsProjection | swan/bsdf.hpp:24-27 | the cosine is the projection of the direction on the normal, and lies in [-1, 1] for a unit direction |
| Bsdf.AbsCosTheta | swan/bsdf.hpp:29-32 | the absolute cosine is non-negative and is plus or minus `CosTheta` |
| Bsdf.Mirror | swan/bsdf.hpp:119 | the mirrored direction keeps the cosine and the length, and a direction plus its mirror lies along the normal |
| Bsdf.MirrorInvolution | swan/bsdf.hpp:119 | mirroring twice gives the direction back |
| Bsdf.SinTransmitted | swan/bsdf.hpp:59-60 | the transmitted sine is non-negative, obeys Snell's law in squared form, and reaches one exactly under total internal reflection |
| Bsdf.Contrast | swan/bsdf.hpp:71-72 | each Fresnel coefficient lies in [-1, 1], strictly inside when both terms are positive; it is -1 when the numerator's positive term vanishes and 0 for equal terms |
| Bsdf.FresnelTerms | swan/bsdf.hpp:64-73 | the averaged squared coefficients lie in [0, 1]; they equal one at grazing incidence and are below one otherwise |
| Bsdf.FresnelOriented | swan/bsdf.hpp:59-73 | for a non-negative cosine the reflectance lies in [0, 1] and equals one exactly under total internal reflection or at grazing incidence |
| Bsdf.FresnelDielectric | swan/bsdf.hpp:52-74 | the reflectance lies in [0, 1] for every cosine; it is one exactly under total internal reflection (with the indices swapped for a negative cosine) or at grazing incidence |
| Bsdf.FresnelSwap | swan/bsdf.hpp:54-57 | a negative cosine gives the reflectance of the negated cosine with the two indices exchanged |
| Bsdf.FresnelEqualIndices | swan/bsdf.hpp:59-73 | with equal indices and a cosine in (0, 1] nothing is reflected |
| Bsdf.FresnelNormalIncidence | swan/bsdf.hpp:52-74 | head-on from either side the reflectance is `((etat - etai) / (etat + etai))^2` |
| Bsdf.FresnelTermsHeadOn | swan/bsdf.hpp:66-73 | with both cosines one the two coefficients are opposite, so the average is the squared contrast of the indices |
| Bsdf.FresnelOrientedHeadOn | swan/bsdf.hpp:59-73 | head-on, with the media fixed, the transmitted cosine is one and the reflectance is the squared contrast of the indices |
| Bsdf.FresnelTermsReversed | swan/bsdf.hpp:66-73 | exchanging the two cosines and the two indices leaves the averaged squared coefficients unchanged |
| Bsdf.SnellReversed | swan/bsdf.hpp:59-64 | Snell's law in squared form read backwards: the transmitted cosine sent back through the boundary gives the original cosine |
| Bsdf.FresnelReciprocity | swan/bsdf.hpp:52-74 | light transmitted at cosine `cost` and sent back from the other medium is not totally reflected, is transmitted at the original cosine, and is reflected in the same proportion |
| Bsdf.AirToGlassHeadOn | swan/bsdf.hpp:52-74 | head-on from index 1 into index 1.5 the reflectance is 0.04 |
| Bsdf.DiffuseF | swan/bsdf.hpp:98-100 | the Lambertian value times `1 / INV_PI` gives back the reflectance, and a non-negative reflectance gives a non-negative value |
| Bsdf.DiffuseSampleF | swan/bsdf.hpp:102-106 | the sample keeps the drawn direction; its weight is the Lambertian `F` and its pdf is the drawn cosine times `INV_PI`, non-negative in the upper hemisphere; above the surface, weight times cosine over pdf gives back the reflectance |
| Bsdf.ReflectSampleF | swan/bsdf.hpp:118-122 | the sampled direction is the mirror of `wo`, taken with pdf one; the estimator returns `r` above the surface and `-r` below it (signed cosine) |
| Bsdf.CosTransmitted | swan/bsdf.hpp:146-151 | away from total internal reflection the transmitted cosine is positive and squares to one minus Snell's squared sine |
| Bsdf.FresnelInline | swan/bsdf.hpp:149-160 | the reflectance the dielectric sampler computes inline is the Fresnel reflectance, and a positive transmitted cosine rules out total internal reflection |
| Bsdf.FresnelOrientation | swan/bsdf.hpp:138-144 | the sampler's choice of media by `entering` picks the same media as the Fresnel function's own sign rule applied to the signed cosine |
| Bsdf.GrazingTransmits | swan/bsdf.hpp:146-150 | at grazing incidence, leaving the denser medium is not total internal reflection |
| Bsdf.RefractDirection | swan/bsdf.hpp:162 | the corrected transmitted direction has tangential part `-eta * wo` and normal part `cost` on the far side of the surface |
| Bsdf.Transmit | swan/bsdf.hpp:162-164 | the transmitted sample has unit length and lies on the far side; its pdf is `1 - re`; its weight is `r * pdf / abs cos`, so weight times abs cos over pdf is `r` when `re != 1` |
| Bsdf.RefractTransmitted | swan/bsdf.hpp:150-164 | the transmission branch: the pdf is one minus the Fresnel reflectance, the direction is the normalised corrected direction on the far side, and off the surface plane weight times abs cos over pdf is `r` |
| Bsdf.RefractSampleF | swan/bsdf.hpp:137-170 | the pdf lies in [0, 1]; under total internal reflection the sample is the mirror of `wo` with pdf one and weight `r / abs cos`; otherwise the pdf is one minus `FresnelDielectric` and the unit direction crosses the surface; off the surface plane weight times abs cos over pdf is `r` |
| Bsdf.RefractDirectionUnit | swan/bsdf.hpp:162 | for a unit `wo` the corrected direction already has unit length, so normalising leaves it unchanged |
| Bsdf.RefractSampleSnell | swan/bsdf.hpp:137-164 | the dielectric sample obeys Snell's law: its tangential part is `wo`'s, reversed and scaled by the incident-to-transmitted index ratio |
| Bsdf.NormalIncidenceTransmits | swan/bsdf.hpp:146-151 | head-on light is never totally reflected, and its transmitted cosine is one |
| Bsdf.RefractDirectionAsWritten | swan/bsdf.hpp:162 | the direction as written has tangential part `+eta * wo`, and normal part `cost - 2 eta cosi` when entering and `2 eta cosi - cost` when leaving |
| Bsdf.HeadOnAsWritten | swan/bsdf.hpp:162 | head-on, the direction as written is `(0, 0, 1 - 2 eta)` from below and `(0, 0, 2 eta - 1)` from above |
| Bsdf.HeadOnCorrected | swan/bsdf.hpp:162 | head-on, the corrected direction is the unit normal on the far side for every `eta` |
| Bsdf.TransmitAlong | swan/bsdf.hpp:162-164 | normalising a direction and dividing by its cosine succeeds exactly off the surface plane; then the sample has unit length, keeps the direction's signs, has pdf `1 - re` and weight `r * pdf / abs cos` |
| Bsdf.RefractTransmittedAsWritten | swan/bsdf.hpp:150-164 | the transmission branch as written yields a sample exactly when the written direction leaves the surface plane; it then keeps `wo`'s tangential signs, has pdf one minus the Fresnel reflectance and weight `r * pdf / abs cos` |
| Bsdf.RefractSampleFAsWritten | swan/bsdf.hpp:137-170 | the dielectric sampler as written: under total internal reflection it mirrors `wo` with pdf one, dividing by zero exactly for `wo` in the plane; otherwise it divides by zero exactly when the written direction lies in the plane, and else returns the normalised written direction with pdf one minus `FresnelDielectric` and weight `r * pdf / abs cos` |
| Bsdf.RefractAsWrittenVanishes | swan/bsdf.hpp:162 | as written, head-on light from index 1 into index 2 produces the zero vector although it is transmitted, and the as-written sampler divides by zero |
| Bsdf.RefractAsWrittenReflects | swan/bsdf.hpp:162 | as written, head-on light from index 1.5 into index 1 produces `(0, 0, 2)`, and the as-written sampler returns a direction on `wo`'s own side of the surface |
| Bsdf.RefractAsWrittenInPlane | swan/bsdf.hpp:162 | as written, a unit `wo` with cosine 28/37 entering index 61 from index 37 is transmitted at cosine 56/61, the written direction `(24/61, 3/61, 0)` lies in the surface plane, and the as-written sampler divides by zero |
| Bsdf.IsDelta | swan/bsdf.hpp:85-172 | the mirror and the dielectric are delta distributions and the Lambertian surface is not |
| Bsdf.F | swan/bsdf.hpp:98-135 | delta variants evaluate to black; the diffuse variant evaluates to `r * INV_PI` for every pair of directions |
| Bsdf.SampleF | swan/bsdf.hpp:83-170 | delta samples have pdf in [0, 1]; a mirror sample is the mirror of `wo` with pdf one; a diffuse sample keeps the drawn direction with weight `F` and pdf the drawn cosine times `INV_PI`; where `RecoversReflectance` holds (diffuse: drawn direction above the surface; mirror: `wo` above it; dielectric: `wo` off the plane), weight times abs cos over pdf gives back the reflectance |
| Bsdf.FReciprocal | swan/bsdf.hpp:98-135 | `F` is symmetric in its two directions |
| Bsdf.IsDeltaIffFVanishes | swan/bsdf.hpp:85-135 | for a non-black reflectance, a variant is a delta distribution exactly when its `F` is black for every pair of directions |
| Camera.DefaultCameraFilm | zebra/camera.hpp:20-21 | the default film is 512 by 512: pixel (511, 511) is on it, column or row 512 is not |
| Camera.RasterIsValid | zebra/camera.hpp:43-45 | a valid pixel lies in `[0, columns) x [0, rows)`, so only a film with pixels has valid pixels |
| Camera.RasterToIndex | zebra/camera.hpp:39-41 | every pixel on the film has an index in `[0, columns * rows)` |
| Camera.RasterIndexRoundTrip | zebra/camera.hpp:39-45 | decoding a valid pixel's index (`index % columns`, `index / columns`) gives the pixel back |
| Camera.IndexRasterRoundTrip | zebra/camera.hpp:39-45 | every index in range decodes to a pixel on the film with that index |
| Camera.RasterToIndexInjective | zebra/camera.hpp:39-45 | distinct pixels on the film get distinct indices |
| Camera.DefaultIndicesFitInt32 | zebra/camera.hpp:20-41 | the default camera's indices fit a signed 32-bit `int` |
| Camera.Truncate | zebra/camera.hpp:31-32 | double-to-int conversion rounds toward zero: the result is within one of the real, on the side of zero |
| Camera.TruncateNonNegative | zebra/camera.hpp:31-32 | a truncated coordinate is non-negative exactly when the real exceeds -1 |
| Camera.TruncateBelow | zebra/camera.hpp:31-32 | a truncated coordinate is below a positive bound exactly when the real is |
| Camera.WorldToRaster | zebra/camera.hpp:29-33 | a direction with `z <= 0` projects to the sentinel `(-1, -1)` |
| Camera.SentinelInvalid | zebra/camera.hpp:30-44 | the sentinel is never a valid pixel |
| Camera.WorldToRasterValidIff | zebra/camera.hpp:29-45 | a direction lands on the film exactly when it points forward and its film coordinates lie in `(-1, columns)` and `(-1, rows)` |
| Camera.FilmColumnInRange | zebra/camera.hpp:31 | a direction with `-1/2 < x <= 1/2` passes through a continuous column in `[0, columns)` |
| Camera.FilmRowInRange | zebra/camera.hpp:32 | a direction with `-1/2 <= y < 1/2` passes through a continuous row in `[0, rows)` |
| Camera.WorldToRasterValid | zebra/camera.hpp:29-45 | a forward direction with `-1/2 < x <= 1/2` and `-1/2 <= y < 1/2` lands on the film |
| Camera.RasterToWorld | zebra/camera.hpp:23-27 | the view direction through a film position has unit length, points down `-z`, and passes through the film point `(x / columns - 1/2, 1/2 - y / rows)` at depth one |
| Camera.RasterToWorldBehind | zebra/camera.hpp:23-33 | projecting a view direction back gives the sentinel, because it points away from the film side |
| Camera.DirectionToCamera | zebra/camera.hpp:35-37 | a point plus its direction to the camera is the origin |
| Camera.ReversedViewRayInSquare | zebra/camera.hpp:23-37 | the reversed view ray through a film position on the film points forward, within the film's square |
| Camera.ViewRayReturnsToFilm | zebra/camera.hpp:23-45 | reversing the view ray through a film position on the film and projecting it lands on a valid pixel |

## Left out

- `CosineWeightedHemisphere` and the global random generator (`swan/bsdf.hpp:21-22`, `34-50`) are left out: they need randomness, `asin`, `sin` and `cos`. The diffuse sampler takes the drawn direction as the parameter `drawn` instead.
- The factories `NewDiffuseBSDF`, `NewReflectBSDF` and `NewRefractBSDF` (`swan/bsdf.hpp:179-197`) are left out: they allocate on the heap and read from a `Parameter` reader. `parameter.hpp` is not part of this model.
- `vector.hpp`, `point.hpp`, `Spectrum` and `constant.hpp` are not part of this model. Vectors, points and spectra are minimal records. `Normalize` divides by the Euclidean length.
- `INV_PI` is assumed to be the double nearest to 1/pi, written as a decimal literal.
- `std::sqrt` is a parameter constrained by `IsSqrt`, not a built-in function.
- IEEE-754 rounding, NaN and infinity are left out: `double` is `real`.
- Bsdf.FresnelDielectric: requires both refractive indices to be positive, the physical domain. The source also computes a value for a zero index (for example 1 when `etai == 0` and `cosi > 0`, `swan/bsdf.hpp:52-73`); the model and every member built on it say nothing about it.
- Bsdf.SampleF: `CanSample` excludes a mirror with `wo.z == 0`, a dielectric at grazing incidence that is totally reflected, and non-positive refractive indices. With the corrected direction these are the only inputs where the sampler divides by zero. The source's own transmission branch also divides by zero where its written direction vanishes or lies in the surface plane; `Bsdf.RefractSampleFAsWritten` models that.
- Bsdf.SampleF: for the dielectric it uses the corrected transmitted direction, not the one written at `swan/bsdf.hpp:162`; see "## Findings".
- Bsdf.RefractSampleF: uses the corrected transmitted direction. The source's weight divides by zero where its written direction vanishes or lies in the surface plane, which `Bsdf.RefractSampleFAsWritten` models.
- Bsdf.RefractTransmitted: uses the corrected transmitted direction. The source's weight divides by zero where its written direction vanishes or lies in the surface plane, which `Bsdf.RefractTransmittedAsWritten` models.
- Bsdf.Transmit: normalises the corrected transmitted direction. For the direction as written, `Bsdf.TransmitAlong` states the same facts together with the division by zero in the surface plane.
- Bsdf.SampleF: weight times abs cos over pdf is stated to give back the reflectance only where `RecoversReflectance` holds. For the mirror below the surface, `Bsdf.ReflectSampleF` states the negated result.
- Bsdf.RefractSampleF: weight times abs cos over pdf equals `r` is not unbiasedness for the dielectric. Off total internal reflection the source always takes the transmission branch (`swan/bsdf.hpp:150-164`) yet reports `pdf = 1 - re`, so the Fresnel factor cancels and the reflection lobe is never sampled. The model states the ratio and promises no unbiasedness for this variant.
- Camera.RasterToWorld requires a non-zero resolution, since the source divides by it.
- Camera.RasterToIndex does not model 32-bit overflow of `y * columns + x` for films over 2^31 pixels. `Camera.DefaultIndicesFitInt32` shows that the default film stays in range.
- Camera.Truncate does not model the undefined conversion of doubles outside the `int` range.
- Camera.ViewRayReturnsToFilm states only that the reversed view ray lands on some valid pixel. It does not say which pixel, because normalisation shrinks the direction towards the centre.
- Concurrency and virtual dispatch are left out. The variants are a closed datatype matched exhaustively.

## Findings

| source | as written | input that shows it | evidently intended | confidence | as-written member | corrected member |
|---|---|---|---|---|---|---|
| swan/bsdf.hpp:162 | the transmitted direction is `Normalize(wo * eta + n * ((eta * cosi - cost) * side))`, which adds `wo` scaled by `eta` without reversing it | `wo = (0, 0, -1)` with indices (1, 2) gives the zero vector, and `Normalize` divides by zero; `wo = (0, 0, 1)` with indices (1, 1.5) gives `(0, 0, 2)`, so the "transmitted" ray goes back to `wo`'s side; `wo = (24/37, 3/37, -28/37)` with indices (37, 61) gives `(24/61, 3/61, 0)`, in the surface plane, so the weight divides by zero | `-wo * eta + n * ((eta * cosi - cost) * side)`: the direction crosses the surface with tangential part `-eta * wo` (Snell's law) and, for unit `wo`, has unit length | medium, not executed | Bsdf.RefractDirectionAsWritten and the sampler Bsdf.RefractSampleFAsWritten (shown by Bsdf.RefractAsWrittenVanishes, Bsdf.RefractAsWrittenReflects, Bsdf.RefractAsWrittenInPlane, Bsdf.HeadOnAsWritten) | Bsdf.RefractDirection and the sampler Bsdf.RefractSampleF (proved by Bsdf.RefractDirectionUnit, Bsdf.RefractSampleSnell, Bsdf.HeadOnCorrected) |

=== FILE: bsdf.dfy ===
/**
 The surface-scattering kernel: the shading-frame helpers, the dielectric
 Fresnel reflectance and the three closed BSDF variants (Lambertian diffuse,
 perfect mirror, smooth dielectric), each with its `F`, `SampleF` and
 `IsDelta`. Directions live in the shading frame, whose normal is +z, and
 both `wo` and the sampled `wi` point away from the surface.
 */
module Bsdf {
  import opened Numerics

  /** An RGB triple of reflectances or radiances. */
  datatype Spectrum = Spectrum(r: real, g: real, b: real)

  /** The default-constructed spectrum. */
  const Black: Spectrum := Spectrum(0.0, 0.0, 0.0)

  /** `spectrum * k`. */
  function Times(s: Spectrum, k: real): Spectrum
  {
    Spectrum(s.r * k, s.g * k, s.b * k)
  }

  /** `spectrum / k`. */
  function Over(s: Spectrum, k: real): Spectrum
    requires k != 0.0
  {
    Spectrum(s.r / k, s.g / k, s.b / k)
  }

  /** `INV_PI`, assumed to be the reciprocal of pi rounded to a double. */
  const InvPi: real := 0.3183098861837907

  // ---------------------------------------------------------------------------
  // Shading frame.
  // ---------------------------------------------------------------------------

  /** The shading normal, +z. */
  const Normal: Vector := Vector(0.0, 0.0, 1.0)

  /** Cosine of the angle between a unit `w` and the normal. */
  function CosTheta(w: Vector): real
  {
    w.z
  }

  /**
   The cosine is the projection of `w` on the normal; for a unit direction
   it lies in [-1, 1].
   */
  lemma CosThetaIsProjection(w: Vector)
    ensures CosTheta(w) == Dot(w, Normal)
    ensures Dot(w, w) == 1.0 ==> -1.0 <= CosTheta(w) <= 1.0
  {
    if Dot(w, w) == 1.0 {
      DotSelf(w);
      assert Sq(Abs(w.z)) == Sq(w.z) by {
        SqOfNeg(w.z);
      }
      assert Sq(1.0) == 1.0;
      if 1.0 < Abs(w.z) {
        SqStrictlyMonotone(1.0, Abs(w.z));
      }
    }
  }

  function AbsCosTheta(w: Vector): (c: real)
    ensures 0.0 <= c
    ensures c == CosTheta(w) || c == -CosTheta(w)
  {
    Abs(w.z)
  }

  /**
   Reflection of `w` about the normal (the law of reflection): the same
   angle with the normal, the same length, and the two directions add up
   to a vector along the normal.
   */
  function Mirror(w: Vector): (m: Vector)
    ensures CosTheta(m) == CosTheta(w)
    ensures Dot(m, m) == Dot(w, w)
    ensures Add(m, w) == Scale(Normal, 2.0 * CosTheta(w))
  {
    Vector(-w.x, -w.y, w.z)
  }

  /** Mirroring twice gives the direction back. */
  lemma MirrorInvolution(w: Vector)
    ensures Mirror(Mirror(w)) == w
  {
  }

  // ---------------------------------------------------------------------------
  // Dielectric Fresnel reflectance.
  // ---------------------------------------------------------------------------

  /**
   Snell's law in squared form: the squared sine of the transmitted angle is
   `(etai/etat)^2 (1 - cosi^2)`, clamped at zero; total internal reflection is
   that value reaching one.
   */
  predicate TotalInternalReflection(cosi: real, etai: real, etat: real)
    requires etat != 0.0
  {
    Sq(etai / etat) * Max(0.0, 1.0 - Sq(cosi)) >= 1.0
  }

  /** Sine of the transmitted angle, `etai/etat * sqrt(max(0, 1 - cosi^2))`. */
  function SinTransmitted(cosi: real, etai: real, etat: real, sqrt: real -> real): (sint: real)
    requires IsSqrt(sqrt)
    requires 0.0 < etai && 0.0 < etat
    ensures 0.0 <= sint
    ensures Sq(sint) == Sq(etai / etat) * Max(0.0, 1.0 - Sq(cosi))
    ensures sint >= 1.0 <==> TotalInternalReflection(cosi, etai, etat)
  {
    var sini := sqrt(Max(0.0, 1.0 - cosi * cosi));
    var eta := etai / etat;
    assert 0.0 <= sini && Sq(sini) == Max(0.0, 1.0 - Sq(cosi));
    MulNonNegative(eta, sini);
    SqOfProduct(eta, sini);
    SqBelowOne(eta * sini);
    eta * sini
  }

  /**
   `(b - a) / (b + a)` for non-negative `a`, `b`: how far apart two
   non-negative quantities are, relative to their sum.
   */
  function Contrast(a: real, b: real): (q: real)
    requires 0.0 <= a && 0.0 <= b && 0.0 < a + b
    ensures -1.0 <= q <= 1.0
    ensures 0.0 < a && 0.0 < b ==> -1.0 < q < 1.0
    ensures b == 0.0 ==> q == -1.0
    ensures a == b ==> q == 0.0
  {
    ContrastRatioBounds(a, b);
    (b - a) / (b + a)
  }

  /** Products of positive indices and non-negative cosines keep their signs. */
  lemma TermSigns(cosi: real, cost: real, etai: real, etat: real)
    requires 0.0 <= cosi && 0.0 < cost
    requires 0.0 < etai && 0.0 < etat
    ensures 0.0 < etai * cost && 0.0 < etat * cost
    ensures 0.0 <= etat * cosi && 0.0 <= etai * cosi
    ensures cosi == 0.0 ==> etat * cosi == 0.0 && etai * cosi == 0.0
    ensures 0.0 < cosi ==> 0.0 < etat * cosi && 0.0 < etai * cosi
  {
    MulPositive(etai, cost);
    MulPositive(etat, cost);
    if 0.0 < cosi {
      MulPositive(etat, cosi);
      MulPositive(etai, cosi);
    }
  }

  /** Half the sum of two squares of reals in [-1, 1]. */
  function MeanSquare(p: real, q: real): (m: real)
    requires -1.0 <= p <= 1.0 && -1.0 <= q <= 1.0
    ensures 0.0 <= m <= 1.0
    ensures -1.0 < p < 1.0 && -1.0 < q < 1.0 ==> m < 1.0
    ensures p == -1.0 && q == -1.0 ==> m == 1.0
    ensures p == 0.0 && q == 0.0 ==> m == 0.0
  {
    SqOfUnitInterval(p);
    SqOfUnitInterval(q);
    (Sq(p) + Sq(q)) * 0.5
  }

  /**
   The Fresnel average of the parallel and perpendicular reflectances, given
   both cosines. At grazing incidence everything is reflected; otherwise
   some light is transmitted.
   */
  function FresnelTerms(cosi: real, cost: real, etai: real, etat: real): (re: real)
    requires 0.0 <= cosi && 0.0 < cost
    requires 0.0 < etai && 0.0 < etat
    ensures 0.0 <= re <= 1.0
    ensures cosi == 0.0 ==> re == 1.0
    ensures 0.0 < cosi ==> re < 1.0
  {
    TermSigns(cosi, cost, etai, etat);
    var term1 := etai * cost;
    var term2 := etat * cosi;
    var term3 := etai * cosi;
    var term4 := etat * cost;
    var parl := Contrast(term1, term2);
    var perp := Contrast(term4, term3);
    MeanSquare(parl, perp)
  }

  /** The reflectance once the cosine has been made non-negative. */
  function FresnelOriented(cosi: real, etai: real, etat: real, sqrt: real -> real): (re: real)
    requires IsSqrt(sqrt)
    requires 0.0 <= cosi
    requires 0.0 < etai && 0.0 < etat
    ensures 0.0 <= re <= 1.0
    ensures re == 1.0 <==> TotalInternalReflection(cosi, etai, etat) || cosi == 0.0
  {
    var sint := SinTransmitted(cosi, etai, etat, sqrt);
    if sint >= 1.0 then
      1.0
    else
      SqBelowOne(sint);
      var cost := sqrt(Max(0.0, 1.0 - sint * sint));
      SqrtPositive(sqrt, 1.0 - sint * sint);
      FresnelTerms(cosi, cost, etai, etat)
  }

  /**
   Fraction of light reflected at a smooth boundary between media of
   refractive indices `etai` (incident side) and `etat`, for an incident
   cosine `cosi`. A negative cosine means the light arrives from the other
   side, so the indices trade places. The result is a fraction in [0, 1];
   it is exactly one under total internal reflection and at grazing
   incidence, and below one otherwise.
   */
  function FresnelDielectric(cosi: real, etai: real, etat: real, sqrt: real -> real): (re: real)
    requires IsSqrt(sqrt)
    requires 0.0 < etai && 0.0 < etat
    ensures 0.0 <= re <= 1.0
    ensures 0.0 <= cosi ==> (re == 1.0 <==> TotalInternalReflection(cosi, etai, etat) || cosi == 0.0)
    ensures cosi < 0.0 ==> (re == 1.0 <==> TotalInternalReflection(-cosi, etat, etai))
  {
    if cosi < 0.0 then
      FresnelOriented(-cosi, etat, etai, sqrt)
    else
      FresnelOriented(cosi, etai, etat, sqrt)
  }

  /**
   Light arriving from below (negative cosine) is treated as light arriving
   from above with the two media exchanged.
   */
  lemma FresnelSwap(c: real, etai: real, etat: real, sqrt: real -> real)
    requires IsSqrt(sqrt)
    requires 0.0 < c
    requires 0.0 < etai && 0.0 < etat
    ensures FresnelDielectric(-c, etai, etat, sqrt) == FresnelDielectric(c, etat, etai, sqrt)
  {
  }

  /** Between two media with the same index nothing is reflected, except at grazing incidence. */
  lemma FresnelEqualIndices(cosi: real, eta: real, sqrt: real -> real)
    requires IsSqrt(sqrt)
    requires 0.0 < cosi <= 1.0
    requires 0.0 < eta
    ensures FresnelDielectric(cosi, eta, eta, sqrt) == 0.0
  {
    SqOfUnitInterval(cosi);
    var sint := SinTransmitted(cosi, eta, eta, sqrt);
    assert eta / eta == 1.0;
    assert Sq(sint) == 1.0 - Sq(cosi);
    SqPositive(cosi);
    SqBelowOne(sint);
    SqrtUnique(sqrt, Max(0.0, 1.0 - sint * sint), cosi);
  }

  /**
   At normal incidence the reflectance is `((etat - etai) / (etat + etai))^2`
   whichever way the light travels.
   */
  lemma FresnelNormalIncidence(etai: real, etat: real, sqrt: real -> real)
    requires IsSqrt(sqrt)
    requires 0.0 < etai && 0.0 < etat
    ensures FresnelDielectric(1.0, etai, etat, sqrt) == Sq((etat - etai) / (etat + etai))
    ensures FresnelDielectric(-1.0, etai, etat, sqrt) == Sq((etat - etai) / (etat + etai))
  {
    var q := Contrast(etai, etat);
    FresnelOrientedHeadOn(etai, etat, sqrt);
    FresnelOrientedHeadOn(etat, etai, sqrt);
    assert FresnelDielectric(-1.0, etai, etat, sqrt) == FresnelOriented(1.0, etat, etai, sqrt);
    ContrastSwap(etai, etat);
    SqOfNeg(q);
  }

  /** Head-on, with the media fixed, the reflectance is the squared contrast of the indices. */
  lemma FresnelOrientedHeadOn(etai: real, etat: real, sqrt: real -> real)
    requires IsSqrt(sqrt)
    requires 0.0 < etai && 0.0 < etat
    ensures FresnelOriented(1.0, etai, etat, sqrt) == Sq(Contrast(etai, etat))
  {
    assert Sq(1.0) == 1.0 && Sq(0.0) == 0.0;
    SqrtUnique(sqrt, 0.0, 0.0);
    SqrtUnique(sqrt, 1.0, 1.0);
    var sint := SinTransmitted(1.0, etai, etat, sqrt);
    assert sint == 0.0;
    assert Max(0.0, 1.0 - sint * sint) == 1.0;
    FresnelTermsHeadOn(etai, etat);
  }

  /** With both cosines one, the two Fresnel coefficients are opposite and the average is their common square. */
  lemma FresnelTermsHeadOn(etai: real, etat: real)
    requires 0.0 < etai && 0.0 < etat
    ensures FresnelTerms(1.0, 1.0, etai, etat) == Sq(Contrast(etai, etat))
  {
    var q := Contrast(etai, etat);
    ContrastSwap(etai, etat);
    SqOfNeg(q);
  }

  /** Air to glass (1 to 1.5) head-on reflects four percent. */
  lemma AirToGlassHeadOn(sqrt: real -> real)
    requires IsSqrt(sqrt)
    ensures FresnelDielectric(1.0, 1.0, 1.5, sqrt) == 0.04
  {
    FresnelNormalIncidence(1.0, 1.5, sqrt);
    assert (1.5 - 1.0) / (1.5 + 1.0) == 0.2;
  }

  // ---------------------------------------------------------------------------
  // Spectrum scaling facts used by the weight-over-pdf lemmas.
  // ---------------------------------------------------------------------------

  lemma TimesCancel(s: Spectrum, k: real, c: real)
    requires k != 0.0 && c != 0.0
    ensures Times(Times(s, k), c / (c * k)) == s
  {
    assert k * (c / (c * k)) == 1.0;
  }

  lemma OverTimesCancel(s: Spectrum, p: real, c: real)
    requires p != 0.0 && c != 0.0
    ensures Times(Over(Times(s, p), c), c / p) == s
  {
    assert (p / c) * (c / p) == 1.0;
    assert s.r * p / c * (c / p) == s.r * ((p / c) * (c / p));
    assert s.g * p / c * (c / p) == s.g * ((p / c) * (c / p));
    assert s.b * p / c * (c / p) == s.b * ((p / c) * (c / p));
  }

  // ---------------------------------------------------------------------------
  // The three BSDF variants.
  // ---------------------------------------------------------------------------

  /**
   A scattering model with its reflectance `r`: Lambertian, perfect mirror,
   or smooth dielectric between media of indices `etai` (below the surface)
   and `etat` (above it).
   */
  datatype Bsdf =
    | Diffuse(r: Spectrum)
    | Reflect(r: Spectrum)
    | Refract(r: Spectrum, etai: real, etat: real)

  /** One call of `SampleF`: the sampled direction, the returned weight and the pdf out-parameter. */
  datatype Sample = Sample(wi: Vector, weight: Spectrum, pdf: real)

  /**
   Sampling is well defined: the mirror needs a direction off the surface
   plane (its weight divides by the cosine), the dielectric needs positive
   indices and, at grazing incidence, a transmission that is not totally
   reflected (for the same reason).
   */
  predicate CanSample(b: Bsdf, wo: Vector)
  {
    match b
    case Diffuse(_) => true
    case Reflect(_) => wo.z != 0.0
    case Refract(_, etai, etat) => 0.0 < etai && 0.0 < etat && (wo.z != 0.0 || etat < etai)
  }

  /**
   A sample's weight, multiplied by the absolute cosine and divided by the
   pdf, gives back `r`. For the diffuse and mirror variants this is the
   one-sample estimator being unbiased; for the dielectric the reported pdf
   is not the probability the branch is taken with, so it is only the
   ratio the sampler's weight is built from.
   */
  predicate WeightOverPdfIs(s: Sample, r: Spectrum)
  {
    s.pdf != 0.0 && Times(s.weight, AbsCosTheta(s.wi) / s.pdf) == r
  }

  // Diffuse.

  /** Every channel is non-negative. */
  predicate NonNegative(s: Spectrum)
  {
    0.0 <= s.r && 0.0 <= s.g && 0.0 <= s.b
  }

  /**
   Lambertian reflection scatters the same amount in every direction: the
   reflectance times `INV_PI`, so that the value times `1 / INV_PI` gives
   the reflectance back, and a non-negative reflectance gives a
   non-negative value.
   */
  function DiffuseF(r: Spectrum): (f: Spectrum)
    ensures Times(f, 1.0 / InvPi) == r
    ensures NonNegative(r) ==> NonNegative(f)
  {
    Times(r, InvPi)
  }

  /**
   Diffuse sampling with the cosine-weighted direction `drawn` already
   chosen by the caller: the pdf is proportional to the cosine.
   */
  function DiffuseSampleF(r: Spectrum, wo: Vector, drawn: Vector): (s: Sample)
    ensures s.wi == drawn
    ensures s.weight == DiffuseF(r)
    ensures s.pdf == CosTheta(drawn) * InvPi
    ensures 0.0 <= CosTheta(drawn) ==> 0.0 <= s.pdf
    ensures 0.0 < CosTheta(drawn) ==> WeightOverPdfIs(s, r)
  {
    var pdf := CosTheta(drawn) * InvPi;
    assert 0.0 < CosTheta(drawn) ==> WeightOverPdfIs(Sample(drawn, DiffuseF(r), pdf), r) by {
      if 0.0 < CosTheta(drawn) {
        TimesCancel(r, InvPi, CosTheta(drawn));
      }
    }
    Sample(drawn, DiffuseF(r), pdf)
  }

  // Mirror.

  /**
   Perfect specular reflection: the mirrored direction, chosen with
   probability one, weighted by the reciprocal of the signed cosine.
   */
  function ReflectSampleF(r: Spectrum, wo: Vector): (s: Sample)
    requires wo.z != 0.0
    ensures s.pdf == 1.0
    ensures Mirror(s.wi) == wo
    ensures 0.0 < CosTheta(wo) ==> WeightOverPdfIs(s, r)
    ensures CosTheta(wo) < 0.0 ==> WeightOverPdfIs(s, Times(r, -1.0))
  {
    var wi := Mirror(wo);
    Sample(wi, Times(r, 1.0 / CosTheta(wi)), 1.0)
  }

  // Dielectric.

  /** `wo` lies below the surface. */
  predicate Entering(wo: Vector)
  {
    CosTheta(wo) < 0.0
  }

  /** Index of the medium on `wo`'s side of the boundary. */
  function IncidentIndex(wo: Vector, etai: real, etat: real): real
  {
    if Entering(wo) then etai else etat
  }

  /** Index of the medium on the far side of the boundary. */
  function TransmittedIndex(wo: Vector, etai: real, etat: real): real
  {
    if Entering(wo) then etat else etai
  }

  /**
   Cosine of the transmitted angle, `sqrt(1 - sin^2)` with the squared sine
   from Snell's law; positive whenever the light is not totally reflected.
   */
  function CosTransmitted(cosi: real, etai: real, etat: real, sqrt: real -> real): (cost: real)
    requires IsSqrt(sqrt)
    requires 0.0 < etat
    requires !TotalInternalReflection(cosi, etai, etat)
    ensures 0.0 < cost
    ensures Sq(cost) == 1.0 - Sq(etai / etat) * Max(0.0, 1.0 - Sq(cosi))
  {
    var sint := Sq(etai / etat) * Max(0.0, 1.0 - Sq(cosi));
    SqrtPositive(sqrt, 1.0 - sint);
    sqrt(1.0 - sint)
  }

  /**
   Direction of the transmitted ray, before normalisation, for a relative
   index `eta` and the cosines `cosi` (of `wo`) and `cost` (of the
   transmitted ray): the reversed, scaled `wo` plus a normal component that
   puts the result on the far side of the surface at cosine `cost`.
   */
  function RefractDirection(wo: Vector, eta: real, cosi: real, cost: real): (t: Vector)
    requires cosi == AbsCosTheta(wo)
    ensures t.x == -eta * wo.x && t.y == -eta * wo.y
    ensures Entering(wo) ==> t.z == cost
    ensures !Entering(wo) ==> t.z == -cost
  {
    var side := if Entering(wo) then -1.0 else 1.0;
    Add(Scale(wo, -eta), Scale(Vector(0.0, 0.0, 1.0), (eta * cosi - cost) * side))
  }

  /**
   The direction exactly as the source computes it: `wo` is scaled by `eta`
   without being reversed.
   */
  function RefractDirectionAsWritten(wo: Vector, eta: real, cosi: real, cost: real): (t: Vector)
    requires cosi == AbsCosTheta(wo)
    ensures t.x == eta * wo.x && t.y == eta * wo.y
    ensures Entering(wo) ==> t.z == cost - 2.0 * eta * cosi
    ensures !Entering(wo) ==> t.z == 2.0 * eta * cosi - cost
  {
    var side := if Entering(wo) then -1.0 else 1.0;
    Add(Scale(wo, eta), Scale(Vector(0.0, 0.0, 1.0), (eta * cosi - cost) * side))
  }

  /**
   The reflectance the dielectric sampler computes inline is the Fresnel
   reflectance: any positive cosine `cost` that satisfies Snell's law in
   squared form yields `FresnelDielectric`'s value.
   */
  lemma FresnelInline(cosi: real, cost: real, etai: real, etat: real, sqrt: real -> real)
    requires IsSqrt(sqrt)
    requires 0.0 <= cosi && 0.0 < cost
    requires 0.0 < etai && 0.0 < etat
    requires Sq(cost) == 1.0 - Sq(etai / etat) * Max(0.0, 1.0 - Sq(cosi))
    ensures !TotalInternalReflection(cosi, etai, etat)
    ensures FresnelOriented(cosi, etai, etat, sqrt) == FresnelTerms(cosi, cost, etai, etat)
  {
    SqPositive(cost);
    var sint := SinTransmitted(cosi, etai, etat, sqrt);
    SqBelowOne(sint);
    assert Max(0.0, 1.0 - sint * sint) == Sq(cost);
    SqrtUnique(sqrt, Max(0.0, 1.0 - sint * sint), cost);
  }

  /** Exchanging the two quantities negates their contrast. */
  lemma ContrastSwap(a: real, b: real)
    requires 0.0 <= a && 0.0 <= b && 0.0 < a + b
    ensures Contrast(b, a) == -Contrast(a, b)
  {
  }

  /**
   The Fresnel average is the same for light going the other way: with the
   two cosines and the two indices exchanged, both coefficients change sign
   and their squares do not change.
   */
  lemma FresnelTermsReversed(cosi: real, cost: real, etai: real, etat: real)
    requires 0.0 < cosi && 0.0 < cost
    requires 0.0 < etai && 0.0 < etat
    ensures FresnelTerms(cost, cosi, etat, etai) == FresnelTerms(cosi, cost, etai, etat)
  {
    TermSigns(cosi, cost, etai, etat);
    var parl := Contrast(etai * cost, etat * cosi);
    var perp := Contrast(etat * cost, etai * cosi);
    ContrastSwap(etai * cost, etat * cosi);
    ContrastSwap(etat * cost, etai * cosi);
    SqOfNeg(parl);
    SqOfNeg(perp);
  }

  /**
   Snell's law in squared form read backwards: if `cost` is the transmitted
   cosine for `cosi` going from `etai` to `etat`, then `cosi` is the
   transmitted cosine for `cost` going from `etat` to `etai`.
   */
  lemma SnellReversed(cosi: real, cost: real, etai: real, etat: real)
    requires 0.0 < etai && 0.0 < etat
    requires Sq(cosi) <= 1.0
    requires Sq(cost) == 1.0 - Sq(etai / etat) * Max(0.0, 1.0 - Sq(cosi))
    ensures Sq(cosi) == 1.0 - Sq(etat / etai) * Max(0.0, 1.0 - Sq(cost))
  {
    var e, e' := etai / etat, etat / etai;
    var back := Sq(e) * (1.0 - Sq(cosi));
    MulNonNegative(Sq(e), 1.0 - Sq(cosi));
    assert Max(0.0, 1.0 - Sq(cost)) == back;
    assert Sq(e') * Sq(e) == 1.0 by {
      SqOfProduct(e', e);
      assert e' * e == 1.0;
    }
    calc {
      Sq(e') * back;
      (Sq(e') * Sq(e)) * (1.0 - Sq(cosi));
      1.0 - Sq(cosi);
    }
  }

  /**
   Reciprocity of the Fresnel reflectance: light transmitted at cosine
   `cost` and sent back from the other medium is transmitted at the
   original cosine again, and is reflected in the same proportion.
   */
  lemma FresnelReciprocity(cosi: real, etai: real, etat: real, sqrt: real -> real)
    requires IsSqrt(sqrt)
    requires 0.0 < cosi <= 1.0
    requires 0.0 < etai && 0.0 < etat
    requires !TotalInternalReflection(cosi, etai, etat)
    ensures var cost := CosTransmitted(cosi, etai, etat, sqrt);
            && !TotalInternalReflection(cost, etat, etai)
            && CosTransmitted(cost, etat, etai, sqrt) == cosi
            && FresnelOriented(cost, etat, etai, sqrt) == FresnelOriented(cosi, etai, etat, sqrt)
  {
    var cost := CosTransmitted(cosi, etai, etat, sqrt);
    SqOfUnitInterval(cosi);
    SnellReversed(cosi, cost, etai, etat);
    FresnelInline(cosi, cost, etai, etat, sqrt);
    FresnelInline(cost, cosi, etat, etai, sqrt);
    FresnelTermsReversed(cosi, cost, etai, etat);
    var back := CosTransmitted(cost, etat, etai, sqrt);
    if back < cosi {
      SqStrictlyMonotone(back, cosi);
    } else if cosi < back {
      SqStrictlyMonotone(cosi, back);
    }
  }

  /**
   Fresnel's own sign convention agrees with the sampler's choice of
   indices: the signed cosine of `wo`, with the indices taken as (above,
   below), selects the same media as the sampler's `entering` test.
   */
  lemma FresnelOrientation(wo: Vector, etai: real, etat: real, sqrt: real -> real)
    requires IsSqrt(sqrt)
    requires 0.0 < etai && 0.0 < etat
    ensures FresnelDielectric(CosTheta(wo), etat, etai, sqrt)
         == FresnelOriented(AbsCosTheta(wo), IncidentIndex(wo, etai, etat), TransmittedIndex(wo, etai, etat), sqrt)
  {
  }

  /**
   The transmission branch of the dielectric sampler, once the reflectance
   `re` and the transmitted cosine `cost` are known: the sample lies on the
   far side of the surface, has unit length and reports pdf `1 - re`.
   */
  function Transmit(r: Spectrum, wo: Vector, eta: real, cosi: real, cost: real, re: real, sqrt: real -> real): (s: Sample)
    requires IsSqrt(sqrt)
    requires cosi == AbsCosTheta(wo) && 0.0 < cost
    ensures s.pdf == 1.0 - re
    ensures s.wi == Normalize(RefractDirection(wo, eta, cosi, cost), sqrt)
    ensures Dot(s.wi, s.wi) == 1.0
    ensures Entering(wo) ==> 0.0 < CosTheta(s.wi)
    ensures !Entering(wo) ==> CosTheta(s.wi) < 0.0
    ensures s.weight == Over(Times(r, s.pdf), AbsCosTheta(s.wi))
    ensures re != 1.0 ==> WeightOverPdfIs(s, r)
  {
    var wi := Normalize(RefractDirection(wo, eta, cosi, cost), sqrt);
    assert re != 1.0 ==> WeightOverPdfIs(Sample(wi, Over(Times(r, 1.0 - re), AbsCosTheta(wi)), 1.0 - re), r) by {
      if re != 1.0 {
        OverTimesCancel(r, 1.0 - re, AbsCosTheta(wi));
      }
    }
    Sample(wi, Over(Times(r, 1.0 - re), AbsCosTheta(wi)), 1.0 - re)
  }

  /**
   At grazing incidence (`wo` in the surface plane) light leaving the denser
   medium below is transmitted, not totally reflected.
   */
  lemma GrazingTransmits(wo: Vector, etai: real, etat: real)
    requires 0.0 < etat < etai
    requires wo.z == 0.0
    ensures !TotalInternalReflection(AbsCosTheta(wo), IncidentIndex(wo, etai, etat), TransmittedIndex(wo, etai, etat))
  {
    var eta := etat / etai;
    assert eta < 1.0 by {
      var d := eta - 1.0;
      assert d * etai == etat - etai;
      if 0.0 <= d {
        MulNonNegative(d, etai);
      }
    }
    SqBelowOne(eta);
  }

  /**
   The transmission branch of the dielectric sampler with the media already
   chosen (`etai` on `wo`'s side): the transmitted cosine from Snell's law,
   the inline Fresnel reflectance, and the sample.
   */
  function RefractTransmitted(r: Spectrum, wo: Vector, etai: real, etat: real, sqrt: real -> real): (s: Sample)
    requires IsSqrt(sqrt)
    requires 0.0 < etai && 0.0 < etat
    requires !TotalInternalReflection(AbsCosTheta(wo), etai, etat)
    ensures s.pdf == 1.0 - FresnelOriented(AbsCosTheta(wo), etai, etat, sqrt)
    ensures Dot(s.wi, s.wi) == 1.0
    ensures Entering(wo) ==> 0.0 < CosTheta(s.wi)
    ensures !Entering(wo) ==> CosTheta(s.wi) < 0.0
    ensures s.weight == Over(Times(r, s.pdf), AbsCosTheta(s.wi))
    ensures wo.z != 0.0 ==> WeightOverPdfIs(s, r)
    ensures s.wi == Normalize(RefractDirection(wo, etai / etat, AbsCosTheta(wo), CosTransmitted(AbsCosTheta(wo), etai, etat, sqrt)), sqrt)
  {
    var eta := etai / etat;
    var cosi := AbsCosTheta(wo);
    var cost := CosTransmitted(cosi, etai, etat, sqrt);
    FresnelInline(cosi, cost, etai, etat, sqrt);
    var re := FresnelTerms(cosi, cost, etai, etat);
    Transmit(r, wo, eta, cosi, cost, re, sqrt)
  }

  /**
   Smooth dielectric sampling. Under total internal reflection all light is
   mirrored (pdf one); otherwise the ray is always transmitted, the sample
   reports the Fresnel transmittance `1 - re` as its pdf, and the weight
   divides it by the transmitted cosine.
   */
  function RefractSampleF(r: Spectrum, etai: real, etat: real, wo: Vector, sqrt: real -> real): (s: Sample)
    requires IsSqrt(sqrt)
    requires 0.0 < etai && 0.0 < etat
    requires wo.z != 0.0 || etat < etai
    ensures 0.0 <= s.pdf <= 1.0
    ensures TotalInternalReflection(AbsCosTheta(wo), IncidentIndex(wo, etai, etat), TransmittedIndex(wo, etai, etat)) ==>
      wo.z != 0.0 && s.wi == Mirror(wo) && s.pdf == 1.0 && Times(s.weight, AbsCosTheta(wo)) == r
    ensures !TotalInternalReflection(AbsCosTheta(wo), IncidentIndex(wo, etai, etat), TransmittedIndex(wo, etai, etat)) ==>
      && s.pdf == 1.0 - FresnelDielectric(CosTheta(wo), etat, etai, sqrt)
      && Dot(s.wi, s.wi) == 1.0
      && (Entering(wo) ==> 0.0 < CosTheta(s.wi))
      && (!Entering(wo) ==> CosTheta(s.wi) < 0.0)
      && s.weight == Over(Times(r, s.pdf), AbsCosTheta(s.wi))
    ensures wo.z != 0.0 ==> WeightOverPdfIs(s, r)
  {
    var ei := IncidentIndex(wo, etai, etat);
    var et := TransmittedIndex(wo, etai, etat);
    FresnelOrientation(wo, etai, etat, sqrt);
    if !TotalInternalReflection(AbsCosTheta(wo), ei, et) then
      RefractTransmitted(r, wo, ei, et, sqrt)
    else
      assert wo.z != 0.0 by {
        if wo.z == 0.0 {
          GrazingTransmits(wo, etai, etat);
        }
      }
      var wi := Mirror(wo);
      OverTimesCancel(r, 1.0, AbsCosTheta(wi));
      Sample(wi, Over(Times(r, 1.0), AbsCosTheta(wi)), 1.0)
  }

  /**
   Snell's law makes lengths add up: a vector whose tangential part is
   `-eta` times `w`'s and whose squared normal part is what the tangential
   part leaves of one has unit length.
   */
  lemma SnellUnit(t: Vector, w: Vector, eta: real)
    requires t.x == -eta * w.x && t.y == -eta * w.y
    requires Sq(t.z) == 1.0 - Sq(eta) * (Sq(w.x) + Sq(w.y))
    ensures Dot(t, t) == 1.0
  {
    SqOfProduct(-eta, w.x);
    SqOfProduct(-eta, w.y);
    SqOfNeg(eta);
    DotSelf(t);
  }

  /**
   For a unit `wo` the transmitted direction is already a unit vector, so
   normalising it changes nothing, and its tangential part is `wo`'s,
   reversed and scaled by the relative index (Snell's law).
   */
  lemma RefractDirectionUnit(wo: Vector, etai: real, etat: real, sqrt: real -> real)
    requires IsSqrt(sqrt)
    requires 0.0 < etai && 0.0 < etat
    requires Dot(wo, wo) == 1.0
    requires !TotalInternalReflection(AbsCosTheta(wo), etai, etat)
    ensures var eta := etai / etat;
            var t := RefractDirection(wo, eta, AbsCosTheta(wo), CosTransmitted(AbsCosTheta(wo), etai, etat, sqrt));
            && Dot(t, t) == 1.0
            && Normalize(t, sqrt) == t
            && t.x == -eta * wo.x && t.y == -eta * wo.y
  {
    var eta := etai / etat;
    var cosi := AbsCosTheta(wo);
    var cost := CosTransmitted(cosi, etai, etat, sqrt);
    var t := RefractDirection(wo, eta, cosi, cost);
    UnitTangential(wo);
    assert Sq(t.z) == Sq(cost) by {
      SqOfNeg(cost);
    }
    SnellUnit(t, wo, eta);
  }

  /**
   The dielectric sampler obeys Snell's law: for a unit `wo` that is not
   totally reflected, the sampled direction's tangential part is `wo`'s,
   reversed and scaled by the ratio of the incident to the transmitted index.
   */
  lemma RefractSampleSnell(r: Spectrum, etai: real, etat: real, wo: Vector, sqrt: real -> real)
    requires IsSqrt(sqrt)
    requires 0.0 < etai && 0.0 < etat
    requires wo.z != 0.0 || etat < etai
    requires Dot(wo, wo) == 1.0
    requires !TotalInternalReflection(AbsCosTheta(wo), IncidentIndex(wo, etai, etat), TransmittedIndex(wo, etai, etat))
    ensures var eta := IncidentIndex(wo, etai, etat) / TransmittedIndex(wo, etai, etat);
            var s := RefractSampleF(r, etai, etat, wo, sqrt);
            s.wi.x == -eta * wo.x && s.wi.y == -eta * wo.y
  {
    RefractDirectionUnit(wo, IncidentIndex(wo, etai, etat), TransmittedIndex(wo, etai, etat), sqrt);
  }

  /** For a unit vector, the clamped squared sine is the squared tangential length. */
  lemma UnitTangential(w: Vector)
    requires Dot(w, w) == 1.0
    ensures Max(0.0, 1.0 - Sq(AbsCosTheta(w))) == Sq(w.x) + Sq(w.y)
  {
    DotSelf(w);
    SqOfNeg(w.z);
    assert Sq(AbsCosTheta(w)) == Sq(w.z);
  }

  /** Head-on light is never totally reflected, and goes through head-on. */
  lemma NormalIncidenceTransmits(etai: real, etat: real, sqrt: real -> real)
    requires IsSqrt(sqrt)
    requires 0.0 < etai && 0.0 < etat
    ensures !TotalInternalReflection(1.0, etai, etat)
    ensures CosTransmitted(1.0, etai, etat, sqrt) == 1.0
  {
    SqrtUnique(sqrt, 1.0, 1.0);
    assert Sq(1.0) == 1.0;
    assert Sq(etai / etat) * Max(0.0, 1.0 - Sq(1.0)) == 0.0;
  }

  /**
   Head-on (`wo` along the normal, so both cosines are one), the direction as
   written lies along the normal at height `1 - 2 eta` on `wo`'s far side:
   it vanishes for `eta = 1/2` and points back to `wo`'s own side for every
   larger `eta`.
   */
  lemma HeadOnAsWritten(eta: real)
    ensures RefractDirectionAsWritten(Vector(0.0, 0.0, -1.0), eta, 1.0, 1.0) == Vector(0.0, 0.0, 1.0 - 2.0 * eta)
    ensures RefractDirectionAsWritten(Vector(0.0, 0.0, 1.0), eta, 1.0, 1.0) == Vector(0.0, 0.0, 2.0 * eta - 1.0)
  {
    var down := RefractDirectionAsWritten(Vector(0.0, 0.0, -1.0), eta, 1.0, 1.0);
    assert down.x == 0.0 && down.y == 0.0 && down.z == 1.0 - 2.0 * eta;
    var up := RefractDirectionAsWritten(Vector(0.0, 0.0, 1.0), eta, 1.0, 1.0);
    assert up.x == 0.0 && up.y == 0.0 && up.z == 2.0 * eta - 1.0;
  }

  /** Head-on, the corrected direction is the unit normal on `wo`'s far side, whatever `eta`. */
  lemma HeadOnCorrected(eta: real)
    ensures RefractDirection(Vector(0.0, 0.0, -1.0), eta, 1.0, 1.0) == Vector(0.0, 0.0, 1.0)
    ensures RefractDirection(Vector(0.0, 0.0, 1.0), eta, 1.0, 1.0) == Vector(0.0, 0.0, -1.0)
  {
  }

  /**
   Counterexample to the direction as written: light leaving a medium of
   index 1 straight down into one of index 2 (`wo = (0, 0, -1)`, relative
   index 1/2, not totally reflected) produces the zero vector, which has no
   direction to normalise.
   */
  lemma RefractAsWrittenVanishes(r: Spectrum, sqrt: real -> real)
    requires IsSqrt(sqrt)
    ensures !TotalInternalReflection(1.0, 1.0, 2.0)
    ensures RefractDirectionAsWritten(Vector(0.0, 0.0, -1.0), 1.0 / 2.0, 1.0, CosTransmitted(1.0, 1.0, 2.0, sqrt)) == Zero
    ensures RefractSampleFAsWritten(r, 1.0, 2.0, Vector(0.0, 0.0, -1.0), sqrt) == DividesByZero
  {
    NormalIncidenceTransmits(1.0, 2.0, sqrt);
    HeadOnAsWritten(1.0 / 2.0);
  }

  /**
   Counterexample to the direction as written: straight up, from index 1.5
   into index 1 (`wo = (0, 0, 1)`, relative index 1.5), the "transmitted"
   direction is twice `wo`, on `wo`'s own side of the surface.
   */
  lemma RefractAsWrittenReflects(r: Spectrum, sqrt: real -> real)
    requires IsSqrt(sqrt)
    ensures !TotalInternalReflection(1.0, 1.5, 1.0)
    ensures RefractDirectionAsWritten(Vector(0.0, 0.0, 1.0), 1.5 / 1.0, 1.0, CosTransmitted(1.0, 1.5, 1.0, sqrt)) == Vector(0.0, 0.0, 2.0)
    ensures var o := RefractSampleFAsWritten(r, 1.0, 1.5, Vector(0.0, 0.0, 1.0), sqrt);
            o.Value? && 0.0 < CosTheta(o.sample.wi)
  {
    NormalIncidenceTransmits(1.5, 1.0, sqrt);
    HeadOnAsWritten(1.5 / 1.0);
    var wo := Vector(0.0, 0.0, 1.0);
    assert !Entering(wo) && AbsCosTheta(wo) == 1.0;
    assert IncidentIndex(wo, 1.0, 1.5) == 1.5 && TransmittedIndex(wo, 1.0, 1.5) == 1.0;
  }

  // ---------------------------------------------------------------------------
  // The dielectric sampler exactly as written.
  // ---------------------------------------------------------------------------

  /**
   What a sampler computes when its arithmetic may divide by zero: a
   sample, or the NaN or infinite result of the division.
   */
  datatype Computed = Value(sample: Sample) | DividesByZero

  /** Scaling by a positive factor keeps the sign. */
  lemma ScaleKeepsSign(k: real, a: real)
    requires 0.0 < k
    ensures k * a < 0.0 <==> a < 0.0
  {
    if a < 0.0 {
      MulPositive(k, -a);
    } else {
      MulNonNegative(k, a);
    }
  }

  /**
   The transmission branch with an arbitrary unnormalised direction `t`:
   normalise it and divide the weight by the new cosine. Both steps divide
   by zero exactly when `t` lies in the surface plane (the zero vector
   included).
   */
  function TransmitAlong(r: Spectrum, t: Vector, re: real, sqrt: real -> real): (o: Computed)
    requires IsSqrt(sqrt)
    ensures o.Value? <==> t.z != 0.0
    ensures o.Value? ==> && o.sample.pdf == 1.0 - re
                         && o.sample.wi == Normalize(t, sqrt)
                         && Dot(o.sample.wi, o.sample.wi) == 1.0
                         && (o.sample.wi.x < 0.0 <==> t.x < 0.0)
                         && (o.sample.wi.y < 0.0 <==> t.y < 0.0)
                         && (o.sample.wi.z < 0.0 <==> t.z < 0.0)
                         && o.sample.weight == Over(Times(r, o.sample.pdf), AbsCosTheta(o.sample.wi))
                         && (re != 1.0 ==> WeightOverPdfIs(o.sample, r))
  {
    if t.z == 0.0 then
      DividesByZero
    else
      var wi := Normalize(t, sqrt);
      assert re != 1.0 ==> WeightOverPdfIs(Sample(wi, Over(Times(r, 1.0 - re), AbsCosTheta(wi)), 1.0 - re), r) by {
        if re != 1.0 {
          OverTimesCancel(r, 1.0 - re, AbsCosTheta(wi));
        }
      }
      Value(Sample(wi, Over(Times(r, 1.0 - re), AbsCosTheta(wi)), 1.0 - re))
  }

  /**
   The transmission branch as written, with the media already chosen: the
   written direction keeps the tangential direction of `wo` instead of
   reversing it, and the sample exists exactly when that direction leaves
   the surface plane.
   */
  function RefractTransmittedAsWritten(r: Spectrum, wo: Vector, etai: real, etat: real, sqrt: real -> real): (o: Computed)
    requires IsSqrt(sqrt)
    requires 0.0 < etai && 0.0 < etat
    requires !TotalInternalReflection(AbsCosTheta(wo), etai, etat)
    ensures o.Value? <==>
      RefractDirectionAsWritten(wo, etai / etat, AbsCosTheta(wo), CosTransmitted(AbsCosTheta(wo), etai, etat, sqrt)).z != 0.0
    ensures o.Value? ==> && o.sample.pdf == 1.0 - FresnelOriented(AbsCosTheta(wo), etai, etat, sqrt)
                         && o.sample.wi == Normalize(RefractDirectionAsWritten(wo, etai / etat, AbsCosTheta(wo), CosTransmitted(AbsCosTheta(wo), etai, etat, sqrt)), sqrt)
                         && Dot(o.sample.wi, o.sample.wi) == 1.0
                         && (o.sample.wi.x < 0.0 <==> wo.x < 0.0)
                         && (o.sample.wi.y < 0.0 <==> wo.y < 0.0)
                         && CosTheta(o.sample.wi) != 0.0
                         && o.sample.weight == Over(Times(r, o.sample.pdf), AbsCosTheta(o.sample.wi))
                         && (wo.z != 0.0 ==> WeightOverPdfIs(o.sample, r))
  {
    var eta := etai / etat;
    var cosi := AbsCosTheta(wo);
    var cost := CosTransmitted(cosi, etai, etat, sqrt);
    FresnelInline(cosi, cost, etai, etat, sqrt);
    var re := FresnelTerms(cosi, cost, etai, etat);
    var t := RefractDirectionAsWritten(wo, eta, cosi, cost);
    ScaleKeepsSign(eta, wo.x);
    ScaleKeepsSign(eta, wo.y);
    assert t.x < 0.0 <==> wo.x < 0.0;
    assert t.y < 0.0 <==> wo.y < 0.0;
    TransmitAlong(r, t, re, sqrt)
  }

  /**
   The smooth dielectric sampler exactly as the source computes it, with the
   transmitted direction as written. Where the source divides by zero, the
   result is `DividesByZero`: a totally reflected `wo` in the surface plane,
   or a written direction that vanishes or lies in the plane.
   */
  function RefractSampleFAsWritten(r: Spectrum, etai: real, etat: real, wo: Vector, sqrt: real -> real): (o: Computed)
    requires IsSqrt(sqrt)
    requires 0.0 < etai && 0.0 < etat
    ensures o.Value? ==> 0.0 <= o.sample.pdf <= 1.0
    ensures TotalInternalReflection(AbsCosTheta(wo), IncidentIndex(wo, etai, etat), TransmittedIndex(wo, etai, etat)) ==>
      && (o.Value? <==> wo.z != 0.0)
      && (o.Value? ==> o.sample.wi == Mirror(wo) && o.sample.pdf == 1.0 && Times(o.sample.weight, AbsCosTheta(wo)) == r)
    ensures !TotalInternalReflection(AbsCosTheta(wo), IncidentIndex(wo, etai, etat), TransmittedIndex(wo, etai, etat)) ==>
      var ei, et := IncidentIndex(wo, etai, etat), TransmittedIndex(wo, etai, etat);
      var written := RefractDirectionAsWritten(wo, ei / et, AbsCosTheta(wo), CosTransmitted(AbsCosTheta(wo), ei, et, sqrt));
      && (o.Value? <==> written.z != 0.0)
      && (o.Value? ==> && o.sample.pdf == 1.0 - FresnelDielectric(CosTheta(wo), etat, etai, sqrt)
                       && o.sample.wi == Normalize(written, sqrt)
                       && Dot(o.sample.wi, o.sample.wi) == 1.0
                       && (o.sample.wi.x < 0.0 <==> wo.x < 0.0)
                       && (o.sample.wi.y < 0.0 <==> wo.y < 0.0)
                       && CosTheta(o.sample.wi) != 0.0
                       && o.sample.weight == Over(Times(r, o.sample.pdf), AbsCosTheta(o.sample.wi)))
    ensures o.Value? && wo.z != 0.0 ==> WeightOverPdfIs(o.sample, r)
  {
    var ei := IncidentIndex(wo, etai, etat);
    var et := TransmittedIndex(wo, etai, etat);
    FresnelOrientation(wo, etai, etat, sqrt);
    if !TotalInternalReflection(AbsCosTheta(wo), ei, et) then
      RefractTransmittedAsWritten(r, wo, ei, et, sqrt)
    else if wo.z == 0.0 then
      DividesByZero
    else
      var wi := Mirror(wo);
      OverTimesCancel(r, 1.0, AbsCosTheta(wi));
      Value(Sample(wi, Over(Times(r, 1.0), AbsCosTheta(wi)), 1.0))
  }

  /**
   Counterexample to the direction as written, off the normal: a unit `wo`
   entering a medium of index 61 from one of index 37 at cosine 28/37 is
   transmitted at cosine 56/61, which is exactly `2 * eta * cosi`, so the
   written direction `(24/61, 3/61, 0)` lies in the surface plane and the
   as-written sampler divides by its zero cosine.
   */
  lemma RefractAsWrittenInPlane(r: Spectrum, sqrt: real -> real)
    requires IsSqrt(sqrt)
    ensures Dot(Vector(24.0 / 37.0, 3.0 / 37.0, -28.0 / 37.0), Vector(24.0 / 37.0, 3.0 / 37.0, -28.0 / 37.0)) == 1.0
    ensures !TotalInternalReflection(28.0 / 37.0, 37.0, 61.0)
    ensures CosTransmitted(28.0 / 37.0, 37.0, 61.0, sqrt) == 56.0 / 61.0
    ensures RefractDirectionAsWritten(Vector(24.0 / 37.0, 3.0 / 37.0, -28.0 / 37.0), 37.0 / 61.0, 28.0 / 37.0, 56.0 / 61.0)
            == Vector(24.0 / 61.0, 3.0 / 61.0, 0.0)
    ensures RefractSampleFAsWritten(r, 37.0, 61.0, Vector(24.0 / 37.0, 3.0 / 37.0, -28.0 / 37.0), sqrt) == DividesByZero
  {
    var wo := Vector(24.0 / 37.0, 3.0 / 37.0, -28.0 / 37.0);
    assert Sq(28.0 / 37.0) == 784.0 / 1369.0;
    assert Sq(37.0 / 61.0) == 1369.0 / 3721.0;
    assert Max(0.0, 1.0 - Sq(28.0 / 37.0)) == 585.0 / 1369.0;
    assert Sq(37.0 / 61.0) * Max(0.0, 1.0 - Sq(28.0 / 37.0)) == 585.0 / 3721.0;
    assert !TotalInternalReflection(28.0 / 37.0, 37.0, 61.0);
    assert Sq(56.0 / 61.0) == 3136.0 / 3721.0;
    var cost := CosTransmitted(28.0 / 37.0, 37.0, 61.0, sqrt);
    if cost < 56.0 / 61.0 {
      SqStrictlyMonotone(cost, 56.0 / 61.0);
    } else if 56.0 / 61.0 < cost {
      SqStrictlyMonotone(56.0 / 61.0, cost);
    }
    assert AbsCosTheta(wo) == 28.0 / 37.0;
    assert Entering(wo);
    var t := RefractDirectionAsWritten(wo, 37.0 / 61.0, 28.0 / 37.0, 56.0 / 61.0);
    assert t.z == 56.0 / 61.0 - 2.0 * (37.0 / 61.0) * (28.0 / 37.0);
  }

  // ---------------------------------------------------------------------------
  // The BSDF interface over the three variants.
  // ---------------------------------------------------------------------------

  /**
   Delta distributions can only be sampled, never evaluated: the mirror and
   the dielectric override the base class's answer, the diffuse variant
   keeps it.
   */
  predicate IsDelta(b: Bsdf)
    ensures IsDelta(b) <==> b.Reflect? || b.Refract?
    ensures !IsDelta(b) <==> b.Diffuse?
  {
    match b
    case Diffuse(_) => false
    case Reflect(_) => true
    case Refract(_, _, _) => true
  }

  /** The BSDF value for the pair of directions `wo`, `wi`. */
  function F(b: Bsdf, wo: Vector, wi: Vector): (f: Spectrum)
    ensures IsDelta(b) ==> f == Black
    ensures !IsDelta(b) ==> f == DiffuseF(b.r)
  {
    match b
    case Diffuse(r) => DiffuseF(r)
    case Reflect(_) => Black
    case Refract(_, _, _) => Black
  }

  /**
   The inputs for which weight times absolute cosine over pdf gives back the
   reflectance: a drawn direction above the surface for the diffuse variant,
   `wo` above the surface for the mirror (whose weight divides by the
   signed cosine), and `wo` off the surface plane for the dielectric.
   */
  predicate RecoversReflectance(b: Bsdf, wo: Vector, drawn: Vector)
  {
    match b
    case Diffuse(_) => 0.0 < CosTheta(drawn)
    case Reflect(_) => 0.0 < CosTheta(wo)
    case Refract(_, _, _) => CosTheta(wo) != 0.0
  }

  /**
   Draw a direction from the BSDF for the outgoing direction `wo`. The
   diffuse variant's cosine-weighted random direction is the parameter
   `drawn`; the other variants ignore it.
   */
  function SampleF(b: Bsdf, wo: Vector, drawn: Vector, sqrt: real -> real): (s: Sample)
    requires IsSqrt(sqrt)
    requires CanSample(b, wo)
    ensures IsDelta(b) ==> 0.0 <= s.pdf <= 1.0
    ensures b.Reflect? ==> s.wi == Mirror(wo) && s.pdf == 1.0
    ensures b.Diffuse? ==> s.pdf == CosTheta(drawn) * InvPi
    ensures !IsDelta(b) ==> s.wi == drawn && s.weight == F(b, wo, drawn)
    ensures RecoversReflectance(b, wo, drawn) ==> WeightOverPdfIs(s, b.r)
  {
    match b
    case Diffuse(r) => DiffuseSampleF(r, wo, drawn)
    case Reflect(r) => ReflectSampleF(r, wo)
    case Refract(r, etai, etat) => RefractSampleF(r, etai, etat, wo, sqrt)
  }

  /** `F` is symmetric in its two directions (Helmholtz reciprocity). */
  lemma FReciprocal(b: Bsdf, wo: Vector, wi: Vector)
    ensures F(b, wo, wi) == F(b, wi, wo)
  {
  }

  /**
   For a BSDF that reflects anything at all, being a delta distribution is
   the same as having a BSDF value of zero for every pair of directions.
   */
  lemma IsDeltaIffFVanishes(b: Bsdf)
    requires b.r != Black
    ensures IsDelta(b) <==> forall wo: Vector, wi: Vector :: F(b, wo, wi) == Black
  {
    if !IsDelta(b) {
      assert F(b, Zero, Zero) != Black;
    }
  }
}

=== FILE: camera.dfy ===
/**
 The camera's raster bookkeeping: which integer pixels are on the film, the
 row-major pixel index, and the pin-hole projection between film positions
 and view directions. The camera looks down -z from the origin; the film
 spans one unit in each direction at distance one.
 */
module Camera {
  import opened Numerics

  /** An integer pixel position (`Point2i`). */
  datatype Point2i = Point2i(x: int, y: int)

  /** A continuous film position (`Point2`). */
  datatype Point2 = Point2(x: real, y: real)

  /** A camera is its film resolution, `resolution.x` columns by `resolution.y` rows. */
  datatype Camera = Camera(resolution: Point2i)

  /** The resolution a camera gets when none is given. */
  const DefaultResolution: Point2i := Point2i(512, 512)

  const DefaultCamera: Camera := Camera(DefaultResolution)

  /** The position `WorldToRaster` returns for directions that do not reach the film. */
  const Sentinel: Point2i := Point2i(-1, -1)

  /** A film with at least one pixel. */
  predicate HasPixels(c: Camera)
  {
    0 < c.resolution.x && 0 < c.resolution.y
  }

  // ---------------------------------------------------------------------------
  // Integer pixels.
  // ---------------------------------------------------------------------------

  /** The pixel lies on the film; only a film with pixels has any. */
  predicate RasterIsValid(c: Camera, p: Point2i)
    ensures RasterIsValid(c, p) ==> HasPixels(c)
    ensures RasterIsValid(c, p) ==> 0 <= p.x < c.resolution.x && 0 <= p.y < c.resolution.y
  {
    p.x >= 0 && p.y >= 0 && p.x < c.resolution.x && p.y < c.resolution.y
  }

  lemma MulNonNegativeInt(a: int, b: int)
    requires 0 <= a && 0 <= b
    ensures 0 <= a * b
  {
  }

  /**
   Row-major index of a pixel. Every pixel on the film gets an index in
   `[0, columns * rows)`.
   */
  function RasterToIndex(c: Camera, p: Point2i): (i: int)
    ensures RasterIsValid(c, p) ==> 0 <= i < c.resolution.x * c.resolution.y
  {
    var w, h := c.resolution.x, c.resolution.y;
    assert RasterIsValid(c, p) ==> 0 <= p.y * w + p.x < w * h by {
      if RasterIsValid(c, p) {
        MulNonNegativeInt(p.y, w);
        MulNonNegativeInt(h - 1 - p.y, w);
        assert (h - 1 - p.y) * w == (h - 1) * w - p.y * w;
        assert (h - 1) * w + w == w * h;
      }
    }
    p.y * w + p.x
  }

  /** The pixel with a given row-major index: the inverse of `RasterToIndex`. */
  function IndexToRaster(c: Camera, i: int): Point2i
    requires 0 < c.resolution.x
  {
    Point2i(i % c.resolution.x, i / c.resolution.x)
  }

  /** The only multiple of a positive `w` strictly between `-w` and `w` is zero. */
  lemma SmallMultipleIsZero(d: int, w: int)
    requires 0 < w && -w < d * w < w
    ensures d == 0
  {
    if 0 < d {
      MulNonNegativeInt(d - 1, w);
    } else if d < 0 {
      MulNonNegativeInt(-d - 1, w);
    }
  }

  /** Euclidean division is unique: a quotient and remainder in range are the quotient and remainder. */
  lemma DivModUnique(n: int, w: int, q: int, r: int)
    requires 0 < w
    requires n == q * w + r && 0 <= r < w
    ensures n / w == q && n % w == r
  {
    var q', r' := n / w, n % w;
    var d := q - q';
    assert d * w == r' - r;
    SmallMultipleIsZero(d, w);
  }

  /** Indexing a pixel on the film and decoding the index gives the pixel back. */
  lemma RasterIndexRoundTrip(c: Camera, p: Point2i)
    requires RasterIsValid(c, p)
    ensures IndexToRaster(c, RasterToIndex(c, p)) == p
  {
    DivModUnique(RasterToIndex(c, p), c.resolution.x, p.y, p.x);
  }

  /** Every index in range decodes to a pixel on the film with that index. */
  lemma IndexRasterRoundTrip(c: Camera, i: int)
    requires HasPixels(c)
    requires 0 <= i < c.resolution.x * c.resolution.y
    ensures RasterIsValid(c, IndexToRaster(c, i))
    ensures RasterToIndex(c, IndexToRaster(c, i)) == i
  {
    var w, h := c.resolution.x, c.resolution.y;
    var q := i / w;
    assert i == q * w + i % w;
    assert q < h by {
      if h <= q {
        MulNonNegativeInt(q - h, w);
      }
    }
  }

  /** Distinct pixels on the film have distinct indices. */
  lemma RasterToIndexInjective(c: Camera, p: Point2i, q: Point2i)
    requires RasterIsValid(c, p) && RasterIsValid(c, q)
    requires RasterToIndex(c, p) == RasterToIndex(c, q)
    ensures p == q
  {
    RasterIndexRoundTrip(c, p);
    RasterIndexRoundTrip(c, q);
  }

  /** The default film has 512 columns and 512 rows: 262144 pixels, from (0, 0) to (511, 511). */
  lemma DefaultCameraFilm()
    ensures HasPixels(DefaultCamera)
    ensures DefaultCamera.resolution.x * DefaultCamera.resolution.y == 262144
    ensures RasterIsValid(DefaultCamera, Point2i(511, 511))
    ensures !RasterIsValid(DefaultCamera, Point2i(512, 0)) && !RasterIsValid(DefaultCamera, Point2i(0, 512))
  {
  }

  /** The default camera's pixel indices fit a signed 32-bit `int`. */
  lemma DefaultIndicesFitInt32(p: Point2i)
    requires RasterIsValid(DefaultCamera, p)
    ensures 0 <= RasterToIndex(DefaultCamera, p) < 0x8000_0000
  {
  }

  // ---------------------------------------------------------------------------
  // Projection.
  // ---------------------------------------------------------------------------

  /** Conversion of a `double` to `int`: the fractional part is dropped, rounding toward zero. */
  function Truncate(a: real): (n: int)
    ensures 0.0 <= a ==> n as real <= a < n as real + 1.0
    ensures a < 0.0 ==> n as real - 1.0 < a <= n as real
  {
    if a < 0.0 then -((-a).Floor) else a.Floor
  }

  /** Truncation lands at zero or above exactly for reals above minus one. */
  lemma TruncateNonNegative(a: real)
    ensures 0 <= Truncate(a) <==> -1.0 < a
  {
  }

  /** Truncation lands below a positive integer `k` exactly for reals below `k`. */
  lemma TruncateBelow(a: real, k: int)
    requires 0 < k
    ensures Truncate(a) < k <==> a < k as real
  {
  }

  /** The continuous raster column a forward direction `v` passes through. */
  function FilmColumn(c: Camera, v: Vector): real
  {
    (0.5 - v.x) * c.resolution.x as real
  }

  /** The continuous raster row a forward direction `v` passes through. */
  function FilmRow(c: Camera, v: Vector): real
  {
    (0.5 + v.y) * c.resolution.y as real
  }

  /**
   The film pixel a view direction `v` passes through, or the sentinel
   `(-1, -1)` when `v` points into the camera's back half-space.
   */
  function WorldToRaster(c: Camera, v: Vector): (p: Point2i)
    ensures v.z <= 0.0 ==> p == Sentinel
  {
    if v.z <= 0.0 then
      Sentinel
    else
      Point2i(Truncate(FilmColumn(c, v)), Truncate(FilmRow(c, v)))
  }

  /** The sentinel is never a pixel on the film. */
  lemma SentinelInvalid(c: Camera)
    ensures !RasterIsValid(c, Sentinel)
  {
  }

  /** A truncated coordinate lands in `[0, k)` exactly when the real coordinate lies in `(-1, k)`. */
  lemma TruncateInRange(a: real, k: int)
    requires 0 < k
    ensures 0 <= Truncate(a) < k <==> -1.0 < a < k as real
  {
    TruncateNonNegative(a);
    TruncateBelow(a, k);
  }

  /** A pixel made of two truncated coordinates is on the film exactly when both coordinates lie in `(-1, extent)`. */
  lemma PixelOfTruncated(c: Camera, a: real, b: real)
    requires HasPixels(c)
    ensures RasterIsValid(c, Point2i(Truncate(a), Truncate(b))) <==>
      -1.0 < a < c.resolution.x as real && -1.0 < b < c.resolution.y as real
  {
    TruncateInRange(a, c.resolution.x);
    TruncateInRange(b, c.resolution.y);
  }

  /**
   A direction reaches a pixel on the film exactly when it points forward
   and both film coordinates, before truncation, lie in `(-1, columns)` and
   `(-1, rows)`.
   */
  lemma WorldToRasterValidIff(c: Camera, v: Vector)
    requires HasPixels(c)
    ensures RasterIsValid(c, WorldToRaster(c, v)) <==>
      && 0.0 < v.z
      && -1.0 < FilmColumn(c, v) < c.resolution.x as real
      && -1.0 < FilmRow(c, v) < c.resolution.y as real
  {
    if 0.0 < v.z {
      PixelOfTruncated(c, FilmColumn(c, v), FilmRow(c, v));
    } else {
      SentinelInvalid(c);
    }
  }

  /** For `0 <= a < 1` and positive `k`, `a * k` lies in `[0, k)`. */
  lemma ScaleUnitInterval(a: real, k: real)
    requires 0.0 <= a < 1.0 && 0.0 < k
    ensures 0.0 <= a * k < k
  {
    MulNonNegative(a, k);
    var d := 1.0 - a;
    MulPositive(d, k);
  }

  /**
   A forward direction inside the film's square, `-1/2 < x <= 1/2` and
   `-1/2 <= y < 1/2`, reaches a pixel on the film.
   */
  lemma WorldToRasterValid(c: Camera, v: Vector)
    requires HasPixels(c)
    requires 0.0 < v.z
    requires -0.5 < v.x <= 0.5 && -0.5 <= v.y < 0.5
    ensures RasterIsValid(c, WorldToRaster(c, v))
  {
    FilmColumnInRange(c, v);
    FilmRowInRange(c, v);
    WorldToRasterValidIff(c, v);
  }

  /** A direction with `-1/2 < x <= 1/2` passes through a column in `[0, columns)`. */
  lemma FilmColumnInRange(c: Camera, v: Vector)
    requires HasPixels(c)
    requires -0.5 < v.x <= 0.5
    ensures 0.0 <= FilmColumn(c, v) < c.resolution.x as real
  {
    var a, k := 0.5 - v.x, c.resolution.x as real;
    ScaleUnitInterval(a, k);
    assert FilmColumn(c, v) == a * k;
  }

  /** A direction with `-1/2 <= y < 1/2` passes through a row in `[0, rows)`. */
  lemma FilmRowInRange(c: Camera, v: Vector)
    requires HasPixels(c)
    requires -0.5 <= v.y < 0.5
    ensures 0.0 <= FilmRow(c, v) < c.resolution.y as real
  {
    var a, k := 0.5 + v.y, c.resolution.y as real;
    ScaleUnitInterval(a, k);
    assert FilmRow(c, v) == a * k;
  }

  /**
   The unit view direction through film position `p`: `x` grows to the
   right, `y` grows downwards, and the film sits one unit in front (-z).
   Scaled to reach the film plane `z = -1`, the direction meets it at the
   film position, centred and divided by the resolution.
   */
  function RasterToWorld(c: Camera, p: Point2, sqrt: real -> real): (v: Vector)
    requires IsSqrt(sqrt)
    requires c.resolution.x != 0 && c.resolution.y != 0
    ensures Dot(v, v) == 1.0
    ensures v.z < 0.0
    ensures v.x == -v.z * (p.x / c.resolution.x as real - 0.5)
    ensures v.y == -v.z * (0.5 - p.y / c.resolution.y as real)
  {
    var a, b := p.x / c.resolution.x as real - 0.5, 0.5 - p.y / c.resolution.y as real;
    var w := Vector(a, b, -1.0);
    var u := Normalize(w, sqrt);
    var len := Length(w, sqrt);
    assert u.x * len == a && u.y * len == b && u.z * len == -1.0;
    assert -u.z * a == u.x by {
      calc {
        -u.z * a;
        -u.z * (u.x * len);
        u.x * -(u.z * len);
        u.x;
      }
    }
    assert -u.z * b == u.y by {
      calc {
        -u.z * b;
        -u.z * (u.y * len);
        u.y * -(u.z * len);
        u.y;
      }
    }
    u
  }

  /** View directions point away from the scene side, so projecting one back gives the sentinel. */
  lemma RasterToWorldBehind(c: Camera, p: Point2, sqrt: real -> real)
    requires IsSqrt(sqrt)
    requires c.resolution.x != 0 && c.resolution.y != 0
    ensures WorldToRaster(c, RasterToWorld(c, p, sqrt)) == Sentinel
  {
  }

  /** The direction from point `p` towards the camera at the origin. */
  function DirectionToCamera(p: Vector): (d: Vector)
    ensures Add(p, d) == Zero
  {
    Vector(0.0 - p.x, 0.0 - p.y, 0.0 - p.z)
  }

  /** A coordinate in `[0, extent)` divided by the extent lies in `[0, 1)`. */
  lemma FractionOfExtent(x: real, extent: real)
    requires 0.0 <= x < extent
    ensures 0.0 <= x / extent < 1.0
  {
    assert x / extent * extent == x;
  }

  /**
   The view ray through a film position inside the film, turned around
   towards the camera, points forward and stays inside the film's square.
   */
  lemma ReversedViewRayInSquare(c: Camera, p: Point2, sqrt: real -> real)
    requires IsSqrt(sqrt)
    requires HasPixels(c)
    requires 0.0 <= p.x < c.resolution.x as real && 0.0 <= p.y < c.resolution.y as real
    ensures var d := DirectionToCamera(RasterToWorld(c, p, sqrt));
      0.0 < d.z && -0.5 < d.x <= 0.5 && -0.5 <= d.y < 0.5
  {
    var a, b := p.x / c.resolution.x as real, p.y / c.resolution.y as real;
    FractionOfExtent(p.x, c.resolution.x as real);
    FractionOfExtent(p.y, c.resolution.y as real);
    var v := Vector(a - 0.5, 0.5 - b, -1.0);
    assert RasterToWorld(c, p, sqrt) == Normalize(v, sqrt);
    assert 1.0 <= Dot(v, v) by {
      DotSelf(v);
    }
    NormalizeShrinks(v, sqrt);
    var k :| 0.0 < k <= 1.0 && Normalize(v, sqrt) == Scale(v, k);
    ShrinkHalfOpen(0.5 - a, k);
    ShrinkHalfOpen(b - 0.5, k);
  }

  /**
   Turning the view ray through a film position inside the film around
   (towards the camera) and projecting it gives a pixel on the film.
   */
  lemma ViewRayReturnsToFilm(c: Camera, p: Point2, sqrt: real -> real)
    requires IsSqrt(sqrt)
    requires HasPixels(c)
    requires 0.0 <= p.x < c.resolution.x as real && 0.0 <= p.y < c.resolution.y as real
    ensures RasterIsValid(c, WorldToRaster(c, DirectionToCamera(RasterToWorld(c, p, sqrt))))
  {
    ReversedViewRayInSquare(c, p, sqrt);
    WorldToRasterValid(c, DirectionToCamera(RasterToWorld(c, p, sqrt)));
  }

  /** Shrinking by a factor in `(0, 1]` keeps a value inside `[-1/2, 1/2)` and `(-1/2, 1/2]`. */
  lemma ShrinkHalfOpen(x: real, k: real)
    requires 0.0 < k <= 1.0
    ensures -0.5 <= x < 0.5 ==> -0.5 <= k * x < 0.5
    ensures -0.5 < x <= 0.5 ==> -0.5 < k * x <= 0.5
  {
    if 0.0 <= x {
      MulNonNegative(1.0 - k, x);
      MulNonNegative(k, x);
    } else {
      MulNonNegative(1.0 - k, -x);
      MulNonNegative(k, -x);
    }
  }
}

=== FILE: numerics.dfy ===
/**
 Real-valued stand-ins for the numeric primitives that the scattering kernel
 and the camera lean on: `double` arithmetic becomes `real` arithmetic, the
 three-component `Vector` becomes an immutable record, and `std::sqrt` becomes
 a function value that the caller supplies together with the promise that it
 really is the non-negative square root (`IsSqrt`).
 */
module Numerics {

  /** A 3-vector (direction, point or offset); the shading frame's normal is the z-axis. */
  datatype Vector = Vector(x: real, y: real, z: real)

  const Zero: Vector := Vector(0.0, 0.0, 0.0)

  function Abs(a: real): (r: real)
    ensures 0.0 <= r
    ensures r == a || r == -a
  {
    if a < 0.0 then -a else a
  }

  /** `std::max` on two doubles. */
  function Max(a: real, b: real): (r: real)
    ensures a <= r && b <= r
    ensures r == a || r == b
  {
    if a < b then b else a
  }

  /** `a * a`; squares are never negative. */
  function Sq(a: real): (r: real)
    ensures 0.0 <= r
  {
    a * a
  }

  function Add(u: Vector, v: Vector): Vector
  {
    Vector(u.x + v.x, u.y + v.y, u.z + v.z)
  }

  function Scale(v: Vector, k: real): Vector
  {
    Vector(v.x * k, v.y * k, v.z * k)
  }

  function Dot(u: Vector, v: Vector): real
  {
    u.x * v.x + u.y * v.y + u.z * v.z
  }

  /** `sqrt` returns the non-negative square root of every non-negative real. */
  ghost predicate IsSqrt(sqrt: real -> real)
  {
    forall a :: 0.0 <= a ==> 0.0 <= sqrt(a) && Sq(sqrt(a)) == a
  }

  // ---------------------------------------------------------------------------
  // Small facts about products and squares, each proved once and used by name.
  // ---------------------------------------------------------------------------

  lemma MulPositive(a: real, b: real)
    requires 0.0 < a && 0.0 < b
    ensures 0.0 < a * b
  {
  }

  lemma MulNonNegative(a: real, b: real)
    requires 0.0 <= a && 0.0 <= b
    ensures 0.0 <= a * b
  {
  }

  lemma SqPositive(a: real)
    requires a != 0.0
    ensures 0.0 < Sq(a)
  {
    if a < 0.0 {
      calc {
        Sq(a);
        (-a) * (-a);
      > { MulPositive(-a, -a); }
        0.0;
      }
    } else {
      calc {
        Sq(a);
        a * a;
      > { MulPositive(a, a); }
        0.0;
      }
    }
  }

  lemma SqOfProduct(a: real, b: real)
    ensures Sq(a * b) == Sq(a) * Sq(b)
  {
    calc {
      Sq(a * b);
      (a * b) * (a * b);
      (a * a) * (b * b);
      Sq(a) * Sq(b);
    }
  }

  lemma SqOfNeg(a: real)
    ensures Sq(-a) == Sq(a)
  {
    calc {
      Sq(-a);
      (-a) * (-a);
      a * a;
      Sq(a);
    }
  }

  /** On the non-negative reals, squaring preserves strict order. */
  lemma SqStrictlyMonotone(a: real, b: real)
    requires 0.0 <= a < b
    ensures Sq(a) < Sq(b)
  {
    var d, s := b - a, b + a;
    MulPositive(d, s);
    calc {
      Sq(b) - Sq(a);
      b * b - a * a;
      d * s;
    }
  }

  /** A non-negative real below one has a square below one, and conversely. */
  lemma SqBelowOne(a: real)
    requires 0.0 <= a
    ensures a < 1.0 <==> Sq(a) < 1.0
  {
    assert Sq(1.0) == 1.0;
    if a < 1.0 {
      SqStrictlyMonotone(a, 1.0);
    } else if 1.0 < a {
      SqStrictlyMonotone(1.0, a);
    }
  }

  /** Squares of reals in [-1, 1] lie in [0, 1]; strictly inside gives strictly below one. */
  lemma SqOfUnitInterval(q: real)
    requires -1.0 <= q <= 1.0
    ensures Sq(q) <= 1.0
    ensures -1.0 < q < 1.0 ==> Sq(q) < 1.0
  {
    assert Sq(1.0) == 1.0;
    if q < 0.0 {
      SqOfNeg(q);
      if -q < 1.0 { SqStrictlyMonotone(-q, 1.0); }
    } else if q < 1.0 {
      SqStrictlyMonotone(q, 1.0);
    }
  }

  /** `(b - a) / (b + a)` lies in [-1, 1] for non-negative `a`, `b`, strictly inside when both are positive. */
  lemma ContrastRatioBounds(a: real, b: real)
    requires 0.0 <= a && 0.0 <= b && 0.0 < a + b
    ensures -1.0 <= (b - a) / (b + a) <= 1.0
    ensures 0.0 < a && 0.0 < b ==> -1.0 < (b - a) / (b + a) < 1.0
  {
    var q := (b - a) / (b + a);
    assert q * (b + a) == b - a;
  }

  // ---------------------------------------------------------------------------
  // Square roots.
  // ---------------------------------------------------------------------------

  /** A non-negative real that squares to `a` is `sqrt(a)`: the root is unique. */
  lemma SqrtUnique(sqrt: real -> real, a: real, r: real)
    requires IsSqrt(sqrt)
    requires 0.0 <= r && Sq(r) == a
    ensures sqrt(a) == r
  {
    var s := sqrt(a);
    assert 0.0 <= s && Sq(s) == a;
    if s < r {
      SqStrictlyMonotone(s, r);
    } else if r < s {
      SqStrictlyMonotone(r, s);
    }
  }

  lemma SqrtPositive(sqrt: real -> real, a: real)
    requires IsSqrt(sqrt)
    requires 0.0 < a
    ensures 0.0 < sqrt(a)
  {
    assert Sq(sqrt(a)) == a;
  }

  /** Square roots are ordered like their arguments. */
  lemma SqrtMonotone(sqrt: real -> real, a: real, b: real)
    requires IsSqrt(sqrt)
    requires 0.0 <= a <= b
    ensures sqrt(a) <= sqrt(b)
  {
    assert Sq(sqrt(a)) == a && Sq(sqrt(b)) == b;
    if sqrt(b) < sqrt(a) {
      SqStrictlyMonotone(sqrt(b), sqrt(a));
    }
  }

  // ---------------------------------------------------------------------------
  // Length and normalisation.
  // ---------------------------------------------------------------------------

  lemma DotSelf(v: Vector)
    ensures Dot(v, v) == Sq(v.x) + Sq(v.y) + Sq(v.z)
  {
  }

  /** Only the zero vector has zero squared length. */
  lemma DotSelfPositive(v: Vector)
    requires v != Zero
    ensures 0.0 < Dot(v, v)
  {
    DotSelf(v);
    if v.x != 0.0 {
      SqPositive(v.x);
    } else if v.y != 0.0 {
      SqPositive(v.y);
    } else {
      SqPositive(v.z);
    }
  }

  lemma DotScaleSelf(v: Vector, k: real)
    ensures Dot(Scale(v, k), Scale(v, k)) == Sq(k) * Dot(v, v)
  {
    assert (v.x * k) * (v.x * k) == (v.x * v.x) * (k * k);
    assert (v.y * k) * (v.y * k) == (v.y * v.y) * (k * k);
    assert (v.z * k) * (v.z * k) == (v.z * v.z) * (k * k);
  }

  /** Euclidean length, `sqrt(v . v)`. */
  function Length(v: Vector, sqrt: real -> real): (len: real)
    requires IsSqrt(sqrt)
    ensures 0.0 <= len
    ensures Sq(len) == Dot(v, v)
  {
    DotSelf(v);
    sqrt(Dot(v, v))
  }

  /**
   The unit vector pointing the same way as `v`: `v` divided by its length.
   The zero vector has no direction (the division would be by zero).
   */
  function Normalize(v: Vector, sqrt: real -> real): (u: Vector)
    requires IsSqrt(sqrt)
    requires v != Zero
    ensures Dot(u, u) == 1.0
    ensures u.x < 0.0 <==> v.x < 0.0
    ensures u.y < 0.0 <==> v.y < 0.0
    ensures u.z < 0.0 <==> v.z < 0.0
    ensures u.z == 0.0 <==> v.z == 0.0
    ensures Dot(v, v) == 1.0 ==> u == v
    ensures Scale(u, Length(v, sqrt)) == v
  {
    DotSelfPositive(v);
    var len := Length(v, sqrt);
    SqrtPositive(sqrt, Dot(v, v));
    var k := 1.0 / len;
    assert 0.0 < k;
    assert Sq(k) * Dot(v, v) == 1.0 by {
      calc {
        Sq(k) * Dot(v, v);
        Sq(k) * Sq(len);
        { SqOfProduct(k, len); }
        Sq(k * len);
        Sq(1.0);
        1.0;
      }
    }
    DotScaleSelf(v, k);
    assert Scale(Scale(v, k), len) == v by {
      assert k * len == 1.0;
      assert (v.x * k) * len == v.x * (k * len);
      assert (v.y * k) * len == v.y * (k * len);
      assert (v.z * k) * len == v.z * (k * len);
    }
    assert Dot(v, v) == 1.0 ==> k == 1.0 by {
      if Dot(v, v) == 1.0 {
        SqrtUnique(sqrt, 1.0, 1.0);
      }
    }
    Scale(v, k)
  }

  /** A vector at least one unit long is normalised by a factor in (0, 1]. */
  lemma NormalizeShrinks(v: Vector, sqrt: real -> real)
    requires IsSqrt(sqrt)
    requires 1.0 <= Dot(v, v)
    ensures v != Zero
    ensures exists k :: 0.0 < k <= 1.0 && Normalize(v, sqrt) == Scale(v, k)
  {
    assert v != Zero;
    var len := Length(v, sqrt);
    SqrtMonotone(sqrt, 1.0, Dot(v, v));
    SqrtUnique(sqrt, 1.0, 1.0);
    assert 1.0 <= len;
    var k := 1.0 / len;
    assert Normalize(v, sqrt) == Scale(v, k);
  }
}
